=== FILE: README.md ===
# Two-slot record benchmark: sequential model

This project models, in Dafny, the sequential core of a reader/writer-lock
benchmark (`Lab4_c++/main.cpp`). Workers share a record of two `int` slots.
The model covers:

- the record itself (`ThreadSafeData`): its constructor, `get`, `set`, and the
  composite read `operator std::string()`, here named `Snapshot`;
- the decimal rendering `std::to_string` that the composite read uses, with a
  parser that reads a rendering back;
- the classification of each command-file line into `READ`, `WRITE` or
  `STRING_OP`, as `load_commands` does it;
- the slice arithmetic in `measure`, which splits the command indices among the
  worker threads;
- the `worker` loop, read as a fold of per-command steps over the record.

Modules:

- `Wrappers`: `Option`.
- `Decimal`: `NatToString`, `IntToString` and `ParseInt`.
- `ThreadSafeData`: the `Record` value with `Init`, `Get`, `Set`, `Snapshot`
  and `ParseSnapshot`.
- `Commands`: tokens, `Command`, `Classify`, `LoadCommands`, and `Format`, the
  line shapes the workload generator writes.
- `Partition`: `SliceOf`, `AllSlices`, and `Owner`, an independent statement of
  which worker executes a given index.
- `Worker`: `Execute`, `Run` (the fold), `LastWrite`, and the methods
  `RunWorker` and `Measure`.

`get` and the composite read are pure functions of the record, so by
construction they cannot change it. `Execute` also states that a `READ` or
`STRING_OP` command leaves the record unchanged.

Three behaviours of main.cpp that a reader might not expect, which the model
follows:

- A `read` or `write` line whose operands are missing or not numbers is not
  turned into a composite read. The code still builds a `READ`/`WRITE`
  command (main.cpp:91-98). A missing operand leaves `cmd.index` or
  `cmd.value` indeterminate. A non-numeric operand makes the stream
  extraction store 0 and fail, and any operand after it is then left
  indeterminate. `Classify` covers only lines whose operands are integer
  tokens.
- The partition is stated for every thread count `threads >= 1`, including
  `threads > total`. In that case every slice except the last one is empty.
- The code does not reject a thread count below 1. A count of 0 divides by
  zero (main.cpp:126). A negative count makes the loop at main.cpp:131 start
  no worker at all, so no command is executed. Every caller passes 1, 2 or 3
  (main.cpp:158), and `Measure` requires `threads >= 1`.

## Model

| member | source | states |
|---|---|---|
| Decimal.NatToString | Lab4_c++/main.cpp:39 | the rendering of a natural number is non-empty, all digits, and starts with '0' only for 0, which renders as "0" |
| Decimal.IntToString | Lab4_c++/main.cpp:39 | `to_string` of an int is non-empty and begins with '-' exactly for negatives; all other characters are digits, so the rendering never contains a space; the digits have no leading zero (a non-negative rendering starts with '0' only for 0, and a negative one never has '0' right after the '-') |
| Decimal.NatRoundTrip | Lab4_c++/main.cpp:39 | reading the digits of a rendered natural number gives back that number |
| Decimal.IntRoundTrip | Lab4_c++/main.cpp:39 | parsing the rendering of any integer gives back that integer |
| Decimal.CanonicalIsRendering | Lab4_c++/main.cpp:39 | a non-empty run of digits with no leading zero (other than "0" itself) is the rendering of its own value |
| Decimal.ParseIntOnlyRenderings | Lab4_c++/main.cpp:39 | every string the parser accepts is the rendering of the value it yields, so "07", "-0" and "+7" are rejected |
| Decimal.ParseIntIffRendering | Lab4_c++/main.cpp:39 | a string parses to x if and only if it is the rendering of x: the parser and the rendering are exact inverses |
| Decimal.IntToStringInjective | Lab4_c++/main.cpp:39 | two integers have the same rendering if and only if they are equal |
| ThreadSafeData.Init | Lab4_c++/main.cpp:19-22 | a freshly constructed record reads 0 from both slots |
| ThreadSafeData.Get | Lab4_c++/main.cpp:24-28 | an index outside {0,1} yields the sentinel -1 |
| ThreadSafeData.Set | Lab4_c++/main.cpp:30-34 | after `set(index, value)`, every `get(j)` returns `value` if `j` is the valid slot `index`, and otherwise what it returned before; an out-of-range index leaves the record equal to what it was |
| ThreadSafeData.Extensionality | Lab4_c++/main.cpp:15 | the record is exactly its two slots: records that agree on `get(0)` and `get(1)` are equal |
| ThreadSafeData.InitSnapshot | Lab4_c++/main.cpp:19-40 | a fresh record reads 0 from both slots and its composite read is "0 0" |
| ThreadSafeData.GetOutOfRange | Lab4_c++/main.cpp:24-25 | `get` of an index below 0 or above 1 is the sentinel -1, whatever the record holds; a named corollary of `Get`'s contract |
| ThreadSafeData.SetOutOfRangeIsNoOp | Lab4_c++/main.cpp:30-31 | `set` of an index below 0 or above 1 leaves both slots unchanged; a named corollary of `Set`'s contract |
| ThreadSafeData.GetAfterSet | Lab4_c++/main.cpp:24-34 | for i in {0,1}, `get(i)` after `set(i, v)` is `v`, and the other slot keeps its value; a named corollary of `Set`'s contract |
| ThreadSafeData.SetSetSameSlot | Lab4_c++/main.cpp:30-34 | a second `set` on the same index overwrites the first |
| ThreadSafeData.SetsOnDifferentSlotsCommute | Lab4_c++/main.cpp:30-34 | `set` calls on different indices commute, because the slots are independent |
| ThreadSafeData.Snapshot | Lab4_c++/main.cpp:36-40 | the composite read contains exactly one space, and neither end of the string is that space, so a non-empty, space-free part stands on each side of it; `ParseSnapshotIffSnapshot` fixes those parts as the renderings of slot 0 and slot 1 |
| ThreadSafeData.SnapshotRoundTrip | Lab4_c++/main.cpp:36-40 | splitting the composite read at its first space and parsing both halves gives back slot 0 and slot 1 |
| ThreadSafeData.ParseSnapshotOnlySnapshots | Lab4_c++/main.cpp:36-40 | every string read back as a record is exactly the composite read of that record |
| ThreadSafeData.ParseSnapshotIffSnapshot | Lab4_c++/main.cpp:36-40 | a string reads back as record r if and only if it is r's composite read, that is `to_string(slot 0)`, one space, `to_string(slot 1)` |
| ThreadSafeData.SnapshotInjective | Lab4_c++/main.cpp:36-40 | two records have the same composite read if and only if they are equal |
| Commands.Classify | Lab4_c++/main.cpp:87-101 | the first token `read` gives READ with the next integer token as index; `write` gives WRITE with the next two integer tokens as index and value; any other first token, or an empty line, gives STRING_OP |
| Commands.Format | Lab4_c++/main.cpp:63-77 | every line the generator writes ("read i", "write i v", "string") is well formed for the loader |
| Commands.ClassifyFormat | Lab4_c++/main.cpp:63-101 | classifying the line written for a command gives that command back |
| Commands.LoadCommands | Lab4_c++/main.cpp:82-105 | the loader yields exactly one command per line, in line order, each the classification of its line |
| Commands.LoadFormatted | Lab4_c++/main.cpp:82-105 | loading the lines written for a command sequence gives that sequence back |
| Partition.SliceOf | Lab4_c++/main.cpp:131-133 | every slice lies within [0, total) with start <= end; the first slice starts at 0 and the last ends at total |
| Partition.AllSlices | Lab4_c++/main.cpp:131-135 | there is exactly one slice per thread |
| Partition.Owner | Lab4_c++/main.cpp:125-133 | the reference owner of an index is a valid worker number |
| Partition.SliceContainsIffOwner | Lab4_c++/main.cpp:125-135 | index k of [0, total) lies in slice i if and only if i is the reference owner of k |
| Partition.Coverage | Lab4_c++/main.cpp:125-135 | every index in [0, total) lies in some slice |
| Partition.Disjoint | Lab4_c++/main.cpp:125-135 | no index lies in two different slices |
| Partition.UnionIsWholeRange | Lab4_c++/main.cpp:125-135 | an integer lies in some slice if and only if it is in [0, total) |
| Partition.Contiguous | Lab4_c++/main.cpp:131-133 | each slice ends exactly where the next one starts |
| Partition.SliceSizes | Lab4_c++/main.cpp:126-133 | the first threads-1 slices have size total / threads, and the last has size total / threads + total % threads |
| Partition.MoreThreadsThanCommands | Lab4_c++/main.cpp:126-133 | when threads > total, every slice but the last is empty and the last slice is [0, total) |
| Worker.Execute | Lab4_c++/main.cpp:109-118 | READ and STRING_OP leave the record unchanged; WRITE changes only the slot it names, and a WRITE to an out-of-range index changes nothing |
| Worker.Run | Lab4_c++/main.cpp:107-120 | after executing a command sequence in order, each valid slot holds either its prior value or a value that some WRITE to that slot in the sequence supplied |
| Worker.RunConcat | Lab4_c++/main.cpp:107-120 | running a + b in order is running a, then b |
| Worker.FinalSlotValue | Lab4_c++/main.cpp:107-120 | after a slice, each valid slot holds the value of the last WRITE to it, or its prior value if the slice never writes it |
| Worker.OnlyEffectiveWritesMatter | Lab4_c++/main.cpp:107-120 | dropping READ, STRING_OP and out-of-range WRITE commands from a slice does not change its result |
| Worker.NoEffectiveWriteNoChange | Lab4_c++/main.cpp:107-120 | a slice without in-range WRITEs leaves the record as it was |
| Worker.RunWorker | Lab4_c++/main.cpp:107-120 | the worker loop over [start, end) ends in the fold of commands[start..end]; an empty range does nothing |
| Worker.Measure | Lab4_c++/main.cpp:122-139 | the loop computes exactly the slices of `AllSlices`; with the workers run to completion in slice order, the final record is the fold of the whole sequence from a fresh record |
| Worker.ExampleRun | Lab4_c++/main.cpp:82-120 | the lines "read 0", "write 0 1", "read 1", "write 1 2", "string" load to the five expected commands, and running them from a fresh record gives the composite read "1 2" |
| Worker.SingleWorkerRunsAll | Lab4_c++/main.cpp:125-135 | with one thread there is a single slice [0, total), and running it is running the whole sequence |

## Left out

- Threads, `std::shared_mutex` with its shared and unique locks, and the lock order in the composite read (main.cpp:16, 26, 32, 37-38). These exist for concurrency, which a sequential value model cannot express. The same goes for per-slot atomicity and deadlock freedom.
- Worker.Measure: the source runs the workers at the same time and joins them (main.cpp:128-139), so for more than one thread the order of their operations is nondeterministic. The model gives only the schedule in which worker i finishes before worker i+1 starts. For one thread this is exactly the source's behaviour.
- Worker.Measure: the elapsed time in milliseconds from `std::chrono` (main.cpp:129, 141-142) is not returned, because wall-clock time is nondeterministic.
- `generate_file` (main.cpp:55-80) uses floating-point random draws from `std::mt19937` and writes a file. Only the shapes of the lines it writes are modelled, by `Commands.Format`.
- File opening, `getline` and `stringstream` tokenisation in `load_commands` (main.cpp:84-89) are left out. The model takes lines that are already split into tokens, with integer tokens already read as integers. Overflow, signs and junk in the integer text are therefore not modelled.
- Commands.Classify: it requires a `read` line to have an integer second token and a `write` line two integer tokens. When an operand is missing, the source leaves `cmd.index` or `cmd.value` indeterminate (main.cpp:93, 97), so there is no behaviour to state. When an operand is present but not a number, the stream extraction stores 0, sets its fail state and leaves any later operand indeterminate (so `write 1 x` loads as a write of 0 to slot 1). That stream-extraction junk belongs to the tokenisation that is left out above, and the model does not cover it.
- Commands.LoadCommands: it requires every line to be well formed in the sense of `Commands.Classify`, for the same reason: a line with a missing operand leaves its command's fields indeterminate, and non-numeric operands belong to the stream extraction left out above.
- The `volatile` discards in `worker` (main.cpp:111, 117) exist only to keep the optimiser from removing the reads. `Execute` computes the read and the composite read and then discards them.
- `main`'s workload sweep and its `setw`/`left` table formatting (main.cpp:145-176) are output formatting.
- Slots, indices and values are 32-bit `int` in the source; the model uses unbounded integers. No arithmetic is done on slot values, so no wrap-around is lost. Likewise, the narrowing of `commands.size()` to `int` (main.cpp:125) is not modelled, so command files of 2^31 lines or more are out of scope.

=== FILE: commands.dfy ===
/**
 * The benchmark's commands and the per-line classification done while loading
 * a command file. A line is taken already split into whitespace-separated
 * tokens, integer tokens already read as integers.
 */
module Commands {

  /** One whitespace-separated token of a command line. */
  datatype Token = Word(text: string) | Num(n: int)

  type Line = seq<Token>

  /** The three operation kinds with the operands each one uses. */
  datatype Command =
    | Read(index: int)
    | Write(index: int, value: int)
    | StringOp

  /** The line's first token is the word `op`. */
  predicate StartsWith(line: Line, op: string) {
    |line| > 0 && line[0] == Word(op)
  }

  /**
   * A `read` line carries an integer index and a `write` line an integer index
   * and value; other lines are unconstrained. On a line missing these operands
   * the loader leaves the command's fields indeterminate.
   */
  predicate WellFormed(line: Line) {
    && (StartsWith(line, "read") ==> |line| >= 2 && line[1].Num?)
    && (StartsWith(line, "write") ==> |line| >= 3 && line[1].Num? && line[2].Num?)
  }

  /** The command one line of a command file denotes. */
  function Classify(line: Line): (c: Command)
    requires WellFormed(line)
    ensures c.Read? <==> StartsWith(line, "read")
    ensures c.Write? <==> StartsWith(line, "write")
    ensures c.StringOp? <==> !StartsWith(line, "read") && !StartsWith(line, "write")
    ensures c.Read? ==> c.index == line[1].n
    ensures c.Write? ==> c.index == line[1].n && c.value == line[2].n
  {
    if StartsWith(line, "read") then Read(line[1].n)
    else if StartsWith(line, "write") then Write(line[1].n, line[2].n)
    else StringOp
  }

  /** The tokens of the line the workload generator writes for a command. */
  function Format(c: Command): (line: Line)
    ensures WellFormed(line)
  {
    match c
    case Read(i) => [Word("read"), Num(i)]
    case Write(i, v) => [Word("write"), Num(i), Num(v)]
    case StringOp => [Word("string")]
  }

  /** Every command survives being written as a line and classified again. */
  lemma ClassifyFormat(c: Command)
    ensures Classify(Format(c)) == c
  {
  }

  /** One command per line, in the order of the lines. */
  function LoadCommands(lines: seq<Line>): (cmds: seq<Command>)
    requires forall i :: 0 <= i < |lines| ==> WellFormed(lines[i])
    ensures |cmds| == |lines|
    ensures forall i :: 0 <= i < |lines| ==> cmds[i] == Classify(lines[i])
  {
    if |lines| == 0 then []
    else LoadCommands(lines[..|lines| - 1]) + [Classify(lines[|lines| - 1])]
  }

  /** Loading the lines written for a command sequence gives that sequence back. */
  lemma LoadFormatted(cmds: seq<Command>)
    ensures LoadCommands(seq(|cmds|, i requires 0 <= i < |cmds| => Format(cmds[i]))) == cmds
  {
    var lines := seq(|cmds|, i requires 0 <= i < |cmds| => Format(cmds[i]));
    var loaded := LoadCommands(lines);
    forall i | 0 <= i < |cmds|
      ensures loaded[i] == cmds[i]
    {
      ClassifyFormat(cmds[i]);
    }
  }
}

=== FILE: decimal.dfy ===
/**
 * Decimal rendering of integers, as `std::to_string(int)` produces it
 * (optional leading '-', then the digits of the magnitude, no leading zeros),
 * together with a parser for that format so that renderings can be read back.
 */
module Decimal {
  import opened Wrappers

  predicate IsDigit(c: char) {
    '0' <= c <= '9'
  }

  predicate AllDigits(s: string) {
    forall i :: 0 <= i < |s| ==> IsDigit(s[i])
  }

  function DigitChar(d: int): (c: char)
    requires 0 <= d < 10
    ensures IsDigit(c)
  {
    (('0' as int) + d) as char
  }

  function DigitValue(c: char): (d: nat)
    requires IsDigit(c)
    ensures d < 10
    ensures DigitChar(d) == c
  {
    c as int - '0' as int
  }

  /** The decimal digits of `n`, most significant first, without leading zeros. */
  function NatToString(n: nat): (s: string)
    ensures |s| >= 1
    ensures AllDigits(s)
    ensures s[0] == '0' <==> n == 0
    ensures n == 0 ==> s == "0"
    decreases n
  {
    if n < 10 then [DigitChar(n)] else NatToString(n / 10) + [DigitChar(n % 10)]
  }

  /** `std::to_string` on an integer: a '-' for negatives, then the magnitude. */
  function IntToString(x: int): (s: string)
    ensures |s| >= 1
    ensures s[0] == '-' <==> x < 0
    ensures forall i :: 1 <= i < |s| ==> IsDigit(s[i])
    ensures ' ' !in s
    ensures x >= 0 ==> (s[0] == '0' <==> x == 0)
    ensures x < 0 ==> |s| >= 2 && s[1] != '0'
  {
    if x < 0 then
      var digits := NatToString(-x);
      assert ("-" + digits)[1..] == digits;
      "-" + digits
    else NatToString(x)
  }

  /** The value of a string of decimal digits, most significant first. */
  function DigitsValue(s: string): nat
    requires AllDigits(s)
  {
    if |s| == 0 then 0 else DigitsValue(s[..|s| - 1]) * 10 + DigitValue(s[|s| - 1])
  }

  /** A non-empty run of digits without a leading zero, except "0" itself. */
  predicate Canonical(s: string) {
    |s| > 0 && AllDigits(s) && (s[0] == '0' ==> |s| == 1)
  }

  /** Reads a canonical run of digits; anything else is rejected. */
  function ParseNat(s: string): (r: Option<nat>)
    ensures r.Some? <==> Canonical(s)
  {
    if Canonical(s) then Some(DigitsValue(s)) else None
  }

  /**
   * Reads exactly the strings `IntToString` produces: an optional '-' and a
   * canonical run of digits, where "-0" is rejected.
   */
  function ParseInt(s: string): (r: Option<int>)
    ensures r.Some? ==> |s| > 0
  {
    if |s| > 0 && s[0] == '-' then
      match ParseNat(s[1..])
      case Some(n) => if n == 0 then None else Some(-(n as int))
      case None => None
    else
      match ParseNat(s)
      case Some(n) => Some(n)
      case None => None
  }

  /** Reading back the digits of a natural number gives the number. */
  lemma {:induction false} NatRoundTrip(n: nat)
    ensures DigitsValue(NatToString(n)) == n
    decreases n
  {
    var s := NatToString(n);
    if n >= 10 {
      NatRoundTrip(n / 10);
      assert s[..|s| - 1] == NatToString(n / 10);
      assert s[|s| - 1] == DigitChar(n % 10);
    }
  }

  /** Parsing the rendering of any integer recovers that integer. */
  lemma IntRoundTrip(x: int)
    ensures ParseInt(IntToString(x)) == Some(x)
  {
    var s := IntToString(x);
    if x < 0 {
      assert s[1..] == NatToString(-x);
      NatRoundTrip(-x);
    } else {
      NatRoundTrip(x);
    }
  }

  /** Distinct integers have distinct renderings. */
  lemma IntToStringInjective(x: int, y: int)
    ensures IntToString(x) == IntToString(y) <==> x == y
  {
    if IntToString(x) == IntToString(y) {
      IntRoundTrip(x);
      IntRoundTrip(y);
    }
  }

  /** A canonical run of digits is the rendering of its own value. */
  lemma {:induction false} CanonicalIsRendering(s: string)
    requires Canonical(s)
    ensures NatToString(DigitsValue(s)) == s
    decreases |s|
  {
    if |s| > 1 {
      var p := s[..|s| - 1];
      var c := s[|s| - 1];
      assert p[0] == s[0];
      CanonicalIsRendering(p);
      var v := DigitsValue(p);
      assert v != 0;
      var n := DigitsValue(s);
      assert n == v * 10 + DigitValue(c);
      assert n / 10 == v && n % 10 == DigitValue(c);
      assert s == p + [c];
    }
  }

  /** Only renderings parse: whatever `ParseInt` accepts is `IntToString` of its result. */
  lemma ParseIntOnlyRenderings(s: string, x: int)
    requires ParseInt(s) == Some(x)
    ensures IntToString(x) == s
  {
    if s[0] == '-' {
      var t := s[1..];
      CanonicalIsRendering(t);
      assert s == "-" + t;
    } else {
      CanonicalIsRendering(s);
    }
  }

  /** `ParseInt` and `IntToString` are inverse: s parses to x exactly when s renders x. */
  lemma ParseIntIffRendering(s: string, x: int)
    ensures ParseInt(s) == Some(x) <==> s == IntToString(x)
  {
    if ParseInt(s) == Some(x) {
      ParseIntOnlyRenderings(s, x);
    }
    if s == IntToString(x) {
      IntRoundTrip(x);
    }
  }
}

=== FILE: partition.dfy ===
/**
 * How `measure` splits the index range [0, total) of the command sequence
 * among `threads` workers: with per = total / threads, worker i < threads - 1
 * gets [i * per, i * per + per) and the last worker gets the rest up to total.
 */
module Partition {

  /** The half-open index range [start, end) one worker executes. */
  datatype Slice = Slice(start: int, end: int) {

    predicate Contains(k: int) {
      start <= k < end
    }

    function Size(): int {
      end - start
    }
  }

  /** a * q grows with a when q is non-negative. */
  lemma {:induction false} MulMonotonic(a: int, b: int, q: int)
    requires 0 <= a <= b && q >= 0
    ensures 0 <= a * q <= b * q
    decreases b - a
  {
    if a < b {
      MulMonotonic(a, b - 1, q);
      assert b * q == (b - 1) * q + q;
    }
  }

  /** The first i equal shares fit in the range when i is at most threads. */
  lemma PrefixFits(i: int, threads: int, total: nat)
    requires threads >= 1 && 0 <= i <= threads
    ensures 0 <= i * (total / threads) <= total
  {
    MulMonotonic(i, threads, total / threads);
  }

  /** The slice of worker i, as the loop in `measure` computes it. */
  function SliceOf(i: int, threads: int, total: nat): (s: Slice)
    requires threads >= 1 && 0 <= i < threads
    ensures 0 <= s.start <= s.end <= total
    ensures i == 0 ==> s.start == 0
    ensures i == threads - 1 ==> s.end == total
  {
    var per := total / threads;
    var start := i * per;
    PrefixFits(i, threads, total);
    PrefixFits(i + 1, threads, total);
    assert (i + 1) * per == start + per;
    Slice(start, if i == threads - 1 then total else start + per)
  }

  /** All slices, worker 0 first. */
  function AllSlices(threads: int, total: nat): (ps: seq<Slice>)
    requires threads >= 1
    ensures |ps| == threads
  {
    seq(threads, i requires 0 <= i < threads => SliceOf(i, threads, total))
  }

  /**
   * An independent statement of which worker executes command k: the k / per-th
   * share, with every index past the equal shares going to the last worker.
   */
  function Owner(k: int, threads: int, total: nat): (w: int)
    requires threads >= 1 && 0 <= k
    ensures 0 <= w < threads
  {
    var per := total / threads;
    if per == 0 then threads - 1
    else if k / per < threads - 1 then k / per
    else threads - 1
  }

  /** Integer division locates k between two consecutive multiples of q. */
  lemma DivIsShare(k: int, q: int, a: int)
    requires q > 0 && 0 <= k && a >= 0
    ensures a * q <= k < a * q + q <==> k / q == a
  {
    var d := k / q;
    assert k == d * q + k % q;
    if d > a {
      MulMonotonic(a + 1, d, q);
      assert (a + 1) * q == a * q + q;
    } else if d < a {
      MulMonotonic(d + 1, a, q);
      assert (d + 1) * q == d * q + q;
    }
  }

  /** Command k lies in worker i's slice exactly when i is its owner. */
  lemma SliceContainsIffOwner(threads: int, total: nat, k: int, i: int)
    requires threads >= 1 && 0 <= k < total && 0 <= i < threads
    ensures SliceOf(i, threads, total).Contains(k) <==> i == Owner(k, threads, total)
  {
    var per := total / threads;
    if per > 0 {
      DivIsShare(k, per, i);
      if i == threads - 1 && k / per > i {
        MulMonotonic(i, k / per, per);
        assert k == (k / per) * per + k % per;
      }
      if i == threads - 1 && k / per < i {
        DivIsShare(k, per, k / per);
        MulMonotonic(k / per + 1, i, per);
        assert (k / per + 1) * per == (k / per) * per + per;
      }
    }
  }

  /** Every index in [0, total) belongs to some slice. */
  lemma Coverage(threads: int, total: nat, k: int)
    requires threads >= 1 && 0 <= k < total
    ensures exists i :: 0 <= i < threads && SliceOf(i, threads, total).Contains(k)
  {
    var w := Owner(k, threads, total);
    SliceContainsIffOwner(threads, total, k, w);
  }

  /** No index belongs to two different slices. */
  lemma Disjoint(threads: int, total: nat, i: int, j: int, k: int)
    requires threads >= 1 && 0 <= i < threads && 0 <= j < threads && i != j
    ensures !(SliceOf(i, threads, total).Contains(k) && SliceOf(j, threads, total).Contains(k))
  {
    if 0 <= k < total {
      SliceContainsIffOwner(threads, total, k, i);
      SliceContainsIffOwner(threads, total, k, j);
    }
  }

  /** Command k is executed by some worker. */
  predicate InSomeSlice(threads: int, total: nat, k: int)
    requires threads >= 1
  {
    exists i :: 0 <= i < threads && SliceOf(i, threads, total).Contains(k)
  }

  /** The union of all slices is exactly [0, total). */
  lemma UnionIsWholeRange(threads: int, total: nat)
    requires threads >= 1
    ensures forall k :: InSomeSlice(threads, total, k) <==> 0 <= k < total
  {
    forall k | 0 <= k < total
      ensures InSomeSlice(threads, total, k)
    {
      Coverage(threads, total, k);
    }
  }

  /** Each slice ends where the next one starts, so there are no gaps. */
  lemma Contiguous(threads: int, total: nat, i: int)
    requires threads >= 1 && 0 <= i < threads - 1
    ensures SliceOf(i, threads, total).end == SliceOf(i + 1, threads, total).start
  {
    var per := total / threads;
    assert (i + 1) * per == i * per + per;
  }

  /** The first threads - 1 slices hold total / threads commands, the last also the remainder. */
  lemma SliceSizes(threads: int, total: nat, i: int)
    requires threads >= 1 && 0 <= i < threads
    ensures i < threads - 1 ==> SliceOf(i, threads, total).Size() == total / threads
    ensures i == threads - 1 ==> SliceOf(i, threads, total).Size() == total / threads + total % threads
  {
    var per := total / threads;
    assert total == threads * per + total % threads;
    assert threads * per == (threads - 1) * per + per;
  }

  /** With more workers than commands every slice but the last is empty. */
  lemma MoreThreadsThanCommands(threads: int, total: nat, i: int)
    requires threads > total && 0 <= i < threads
    ensures i < threads - 1 ==> SliceOf(i, threads, total) == Slice(0, 0)
    ensures i == threads - 1 ==> SliceOf(i, threads, total) == Slice(0, total)
  {
    assert total / threads == 0;
  }
}

=== FILE: thread_safe_data.dfy ===
/**
 * The two-slot record shared by the benchmark's workers, taken as a value.
 * In the program each slot is an `int` guarded by its own reader/writer lock;
 * here the record is immutable and each operation is a pure function of it,
 * so the locks disappear and `set` returns the updated record.
 */
module ThreadSafeData {
  import opened Wrappers
  import Decimal

  datatype Record = Record(slot0: int, slot1: int)

  /** What `get` answers for an index that names no slot. */
  const Sentinel: int := -1

  /** The slots are numbered 0 and 1; every other index is out of range. */
  predicate ValidIndex(index: int) {
    0 <= index <= 1
  }

  /** The record as the constructor leaves it. */
  function Init(): (r: Record)
    ensures forall i :: ValidIndex(i) ==> Get(r, i) == 0
  {
    Record(0, 0)
  }

  /** The value of slot `index`, or the sentinel when there is no such slot. */
  function Get(r: Record, index: int): (v: int)
    ensures !ValidIndex(index) ==> v == Sentinel
  {
    if !ValidIndex(index) then Sentinel
    else if index == 0 then r.slot0
    else r.slot1
  }

  /** Writes slot `index`; an out-of-range index leaves the record as it was. */
  function Set(r: Record, index: int, value: int): (r': Record)
    ensures forall j :: Get(r', j) == (if ValidIndex(index) && j == index then value else Get(r, j))
    ensures !ValidIndex(index) ==> r' == r
  {
    if !ValidIndex(index) then r
    else if index == 0 then r.(slot0 := value)
    else r.(slot1 := value)
  }

  /**
   * The composite read: both slots in decimal, separated by one space. The
   * result holds exactly one space, with a non-empty rendering on each side.
   */
  function Snapshot(r: Record): (s: string)
    ensures exists k :: 0 < k < |s| - 1 && s[k] == ' ' && ' ' !in s[..k] && ' ' !in s[k + 1..]
  {
    var a := Decimal.IntToString(r.slot0);
    var b := Decimal.IntToString(r.slot1);
    var s := a + " " + b;
    assert s[..|a|] == a && s[|a| + 1..] == b && s[|a|] == ' ';
    s
  }

  /** Position of the first occurrence of `c` in `s`, if any. */
  function FirstIndexOf(s: string, c: char): (k: Option<nat>)
    ensures k.Some? ==> k.value < |s| && s[k.value] == c && c !in s[..k.value]
    ensures k.None? ==> c !in s
  {
    if |s| == 0 then None
    else if s[0] == c then Some(0)
    else match FirstIndexOf(s[1..], c)
      case None => None
      case Some(k) => assert s[..k + 1] == [s[0]] + s[1..][..k]; Some(k + 1)
  }

  /** Reads a composite-read string back into the record it describes. */
  function ParseSnapshot(s: string): Option<Record> {
    match FirstIndexOf(s, ' ')
    case None => None
    case Some(k) =>
      match (Decimal.ParseInt(s[..k]), Decimal.ParseInt(s[k + 1..]))
      case (Some(a), Some(b)) => Some(Record(a, b))
      case _ => None
  }

  /** The two slots determine the record. */
  lemma Extensionality(a: Record, b: Record)
    requires Get(a, 0) == Get(b, 0) && Get(a, 1) == Get(b, 1)
    ensures a == b
  {
  }

  /** A fresh record holds 0 in both slots and reads as "0 0". */
  lemma InitSnapshot()
    ensures Get(Init(), 0) == 0 && Get(Init(), 1) == 0
    ensures Snapshot(Init()) == "0 0"
  {
  }

  /** `get` of an out-of-range index answers the sentinel whatever the record holds (a corollary of `Get`'s contract). */
  lemma GetOutOfRange(r: Record, index: int)
    requires !ValidIndex(index)
    ensures Get(r, index) == Sentinel
  {
  }

  /** `set` of an out-of-range index changes neither slot (a corollary of `Set`'s contract). */
  lemma SetOutOfRangeIsNoOp(r: Record, index: int, value: int)
    requires !ValidIndex(index)
    ensures Get(Set(r, index, value), 0) == Get(r, 0)
    ensures Get(Set(r, index, value), 1) == Get(r, 1)
  {
  }

  /** After `set(i, v)`, `get(i)` is `v` and the other slot is unchanged (a corollary of `Set`'s contract). */
  lemma GetAfterSet(r: Record, i: int, v: int)
    requires ValidIndex(i)
    ensures Get(Set(r, i, v), i) == v
    ensures Get(Set(r, i, v), 1 - i) == Get(r, 1 - i)
  {
  }

  /** Writing the same slot twice keeps only the second value. */
  lemma SetSetSameSlot(r: Record, i: int, v: int, w: int)
    ensures Set(Set(r, i, v), i, w) == Set(r, i, w)
  {
  }

  /** Writes to different slots commute: the slots are independent. */
  lemma SetsOnDifferentSlotsCommute(r: Record, i: int, v: int, j: int, w: int)
    requires i != j
    ensures Set(Set(r, i, v), j, w) == Set(Set(r, j, w), i, v)
  {
  }

  /** Splitting the composite read at its space and parsing both halves gives back the slots. */
  lemma SnapshotRoundTrip(r: Record)
    ensures ParseSnapshot(Snapshot(r)) == Some(r)
  {
    var a := Decimal.IntToString(r.slot0);
    var b := Decimal.IntToString(r.slot1);
    var s := Snapshot(r);
    assert s[..|a|] == a;
    assert s[|a| + 1..] == b;
    assert ' ' !in s[..|a|];
    assert FirstIndexOf(s, ' ') == Some(|a|);
    Decimal.IntRoundTrip(r.slot0);
    Decimal.IntRoundTrip(r.slot1);
  }

  /** Two records with the same composite read are the same record. */
  lemma SnapshotInjective(r: Record, r': Record)
    ensures Snapshot(r) == Snapshot(r') <==> r == r'
  {
    if Snapshot(r) == Snapshot(r') {
      SnapshotRoundTrip(r);
      SnapshotRoundTrip(r');
    }
  }

  /** Only composite reads parse: whatever `ParseSnapshot` accepts is the composite read of its result. */
  lemma ParseSnapshotOnlySnapshots(s: string, r: Record)
    requires ParseSnapshot(s) == Some(r)
    ensures s == Snapshot(r)
  {
    var k := FirstIndexOf(s, ' ').value;
    Decimal.ParseIntOnlyRenderings(s[..k], r.slot0);
    Decimal.ParseIntOnlyRenderings(s[k + 1..], r.slot1);
    assert s == s[..k] + " " + s[k + 1..];
  }

  /** A string parses to r exactly when it is the composite read of r. */
  lemma ParseSnapshotIffSnapshot(s: string, r: Record)
    ensures ParseSnapshot(s) == Some(r) <==> s == Snapshot(r)
  {
    if ParseSnapshot(s) == Some(r) {
      ParseSnapshotOnlySnapshots(s, r);
    }
    if s == Snapshot(r) {
      SnapshotRoundTrip(r);
    }
  }
}

=== FILE: worker.dfy ===
/**
 * What a worker does with its slice, and what `measure` does with the whole
 * command sequence, on one thread. Each command is one step on the record:
 * a read and a composite read compute a value that is thrown away, a write
 * is `set`. Executing a sequence of commands is the left-to-right fold of
 * those steps.
 */
module Worker {
  import opened Wrappers
  import opened ThreadSafeData
  import opened Commands
  import opened Partition

  /** One command's effect on the record. */
  function Execute(r: Record, c: Command): (r': Record)
    ensures !c.Write? ==> r' == r
    ensures c.Write? ==> Get(r', c.index) == (if ValidIndex(c.index) then c.value else Sentinel)
    ensures c.Write? ==> forall j :: j != c.index ==> Get(r', j) == Get(r, j)
  {
    match c
    case Read(_) => r
    case Write(i, v) => Set(r, i, v)
    case StringOp => r
  }

  /**
   * The record after executing `cmds` in order, starting from `r`. Each slot
   * ends with its prior value or with a value some WRITE to it supplied:
   * no value appears from anywhere else.
   */
  function Run(r: Record, cmds: seq<Command>): (r': Record)
    ensures forall slot :: ValidIndex(slot) ==>
      Get(r', slot) == Get(r, slot) || exists i :: 0 <= i < |cmds| && cmds[i] == Write(slot, Get(r', slot))
    decreases |cmds|
  {
    if |cmds| == 0 then r
    else
      var init := cmds[..|cmds| - 1];
      assert forall i :: 0 <= i < |init| ==> init[i] == cmds[i];
      Execute(Run(r, init), cmds[|cmds| - 1])
  }

  /** The value of the last write to `slot` in `cmds`, if there is one. */
  function LastWrite(cmds: seq<Command>, slot: int): Option<int>
    decreases |cmds|
  {
    if |cmds| == 0 then None
    else if cmds[|cmds| - 1].Write? && cmds[|cmds| - 1].index == slot then Some(cmds[|cmds| - 1].value)
    else LastWrite(cmds[..|cmds| - 1], slot)
  }

  /** A write that names a slot: the only command that changes the record. */
  predicate Effective(c: Command) {
    c.Write? && ValidIndex(c.index)
  }

  /** The effective commands of `cmds`, in order. */
  function EffectiveOnly(cmds: seq<Command>): (e: seq<Command>)
    ensures forall i :: 0 <= i < |e| ==> Effective(e[i])
    ensures |e| <= |cmds|
    decreases |cmds|
  {
    if |cmds| == 0 then []
    else if Effective(cmds[|cmds| - 1]) then EffectiveOnly(cmds[..|cmds| - 1]) + [cmds[|cmds| - 1]]
    else EffectiveOnly(cmds[..|cmds| - 1])
  }

  /** Executing a + b is executing a, then b. */
  lemma {:induction false} RunConcat(r: Record, a: seq<Command>, b: seq<Command>)
    ensures Run(r, a + b) == Run(Run(r, a), b)
    decreases |b|
  {
    if |b| > 0 {
      var b' := b[..|b| - 1];
      assert (a + b)[..|a + b| - 1] == a + b';
      assert (a + b)[|a + b| - 1] == b[|b| - 1];
      RunConcat(r, a, b');
    } else {
      assert a + b == a;
    }
  }

  /**
   * Each slot ends with the value of the last write to it, or keeps its prior
   * value when the commands never write it.
   */
  lemma {:induction false} FinalSlotValue(r: Record, cmds: seq<Command>, slot: int)
    requires ValidIndex(slot)
    ensures Get(Run(r, cmds), slot) == LastWrite(cmds, slot).ValueOr(Get(r, slot))
    decreases |cmds|
  {
    if |cmds| > 0 {
      FinalSlotValue(r, cmds[..|cmds| - 1], slot);
    }
  }

  /** Reads, composite reads and writes to out-of-range indices can be dropped. */
  lemma {:induction false} OnlyEffectiveWritesMatter(r: Record, cmds: seq<Command>)
    ensures Run(r, cmds) == Run(r, EffectiveOnly(cmds))
    decreases |cmds|
  {
    if |cmds| > 0 {
      var init := cmds[..|cmds| - 1];
      var last := cmds[|cmds| - 1];
      OnlyEffectiveWritesMatter(r, init);
      if Effective(last) {
        assert EffectiveOnly(cmds) == EffectiveOnly(init) + [last];
        assert (EffectiveOnly(init) + [last])[..|EffectiveOnly(init)|] == EffectiveOnly(init);
      }
    }
  }

  /** A slice without effective writes leaves the record as it found it. */
  lemma {:induction false} NoEffectiveWriteNoChange(r: Record, cmds: seq<Command>)
    requires forall i :: 0 <= i < |cmds| ==> !Effective(cmds[i])
    ensures Run(r, cmds) == r
    decreases |cmds|
  {
    if |cmds| > 0 {
      NoEffectiveWriteNoChange(r, cmds[..|cmds| - 1]);
    }
  }

  /**
   * The worker loop over commands[start..end). A worker whose range is empty
   * does nothing.
   */
  method RunWorker(data: Record, commands: seq<Command>, start: int, end: int) returns (r: Record)
    requires 0 <= start
    requires start < end ==> end <= |commands|
    ensures start < end ==> r == Run(data, commands[start..end])
    ensures end <= start ==> r == data
  {
    r := data;
    if end <= start {
      return;
    }
    var i := start;
    while i < end
      invariant start <= i <= end
      invariant r == Run(data, commands[start..i])
    {
      assert commands[start..i + 1][..i - start] == commands[start..i];
      r := Execute(r, commands[i]);
      i := i + 1;
    }
  }

  /**
   * `measure` run on one thread: a fresh record, the slices computed as in the
   * program, and each worker executed to completion in slice order.
   */
  method Measure(threads: int, commands: seq<Command>) returns (slices: seq<Slice>, data: Record)
    requires threads >= 1
    ensures slices == AllSlices(threads, |commands|)
    ensures data == Run(Init(), commands)
  {
    data := Init();
    var total := |commands|;
    var per := total / threads;
    slices := [];
    ghost var done: nat := 0;
    var i := 0;
    while i < threads
      invariant 0 <= i <= threads
      invariant |slices| == i
      invariant forall j :: 0 <= j < i ==> slices[j] == SliceOf(j, threads, total)
      invariant i < threads ==> done == SliceOf(i, threads, total).start
      invariant i == threads ==> done == total
      invariant done <= total
      invariant data == Run(Init(), commands[..done])
    {
      var start := i * per;
      var end := if i == threads - 1 then total else start + per;
      var slice := SliceOf(i, threads, total);
      assert Slice(start, end) == slice;
      DoneThenSlice(commands, slice.start, slice.end);
      data := RunWorker(data, commands, start, end);
      if i < threads - 1 {
        Contiguous(threads, total, i);
      }
      done := end;
      slices := slices + [Slice(start, end)];
      i := i + 1;
    }
    assert commands[..done] == commands;
  }

  /** Executing the commands before a slice and then the slice is executing up to its end. */
  lemma DoneThenSlice(commands: seq<Command>, start: int, end: int)
    requires 0 <= start <= end <= |commands|
    ensures Run(Init(), commands[..end]) == Run(Run(Init(), commands[..start]), commands[start..end])
  {
    assert commands[..start] + commands[start..end] == commands[..end];
    RunConcat(Init(), commands[..start], commands[start..end]);
  }

  /** The lines "read 0", "write 0 1", "read 1", "write 1 2", "string", loaded and run on one thread. */
  lemma ExampleRun()
    ensures LoadCommands([[Word("read"), Num(0)], [Word("write"), Num(0), Num(1)], [Word("read"), Num(1)],
                          [Word("write"), Num(1), Num(2)], [Word("string")]])
         == [Read(0), Write(0, 1), Read(1), Write(1, 2), StringOp]
    ensures Snapshot(Run(Init(), [Read(0), Write(0, 1), Read(1), Write(1, 2), StringOp])) == "1 2"
  {
    var cmds := [Read(0), Write(0, 1), Read(1), Write(1, 2), StringOp];
    FinalSlotValue(Init(), cmds, 0);
    FinalSlotValue(Init(), cmds, 1);
    var upToWrite1 := cmds[..4];
    var upToRead1 := upToWrite1[..3];
    var upToWrite0 := upToRead1[..2];
    assert upToWrite1 == [Read(0), Write(0, 1), Read(1), Write(1, 2)];
    assert upToRead1 == [Read(0), Write(0, 1), Read(1)];
    assert upToWrite0 == [Read(0), Write(0, 1)];
    assert LastWrite(upToRead1, 0) == Some(1);
    assert LastWrite(cmds, 0) == Some(1);
    assert LastWrite(cmds, 1) == Some(2);
    var r := Run(Init(), cmds);
    Extensionality(r, Record(1, 2));
  }

  /** With one thread the only worker executes the whole sequence. */
  lemma SingleWorkerRunsAll(commands: seq<Command>)
    ensures AllSlices(1, |commands|) == [Slice(0, |commands|)]
    ensures var s := AllSlices(1, |commands|)[0]; Run(Init(), commands[s.start..s.end]) == Run(Init(), commands)
  {
    assert commands[0..|commands|] == commands;
  }
}

=== FILE: wrappers.dfy ===
/** The optional result of the parsers in this model. */
module Wrappers {

  /** Either no value, or exactly one value of type T. */
  datatype Option<T> = None | Some(value: T) {

    /** The held value when there is one, and `fallback` when there is none. */
    function ValueOr(fallback: T): T {
      if Some? then value else fallback
    }
  }
}
